=== FILE: README.md ===
# Solar dashboard core, modelled in Dafny

This project models the small layer of pure logic under the pages of a photovoltaic
monitoring dashboard. The layer works on a hard-coded customer store and covers the
following:

- **Portfolio totals** (`getTotalsData`): the number of customers and of active customers,
  the summed generation and consumption, the delta, and the delta percentage.
- **Customer list view**: a case-insensitive name search, ANDed with an account-status
  filter, then a stable sort. The name sort is ascending; the delta, generation and
  consumption sorts are descending. The page also shows three summary counters.
- **Report selection state machine**: toggle one customer, select all or deselect all,
  the export guard shared by the PDF and Excel buttons, and the preview labels.
- **Customer detail page**: lookup by id with a not-found screen, the daily series scaled
  from the shared baseline curve, the efficiency percentage, and the delta badge.
- **New-customer form**: the required-field check on submit, reset, and the initial state.

Everything is a pure function over immutable sequences of records. Kilowatt-hours are
`int`. A percentage is an `Option<real>` that is `None` when its denominator is zero.
Toasts and router navigation are returned as values.

Files and modules:

- `common.dfy` (`Common`): `Option`, duplicate-freedom, and `Filter` (`Array.prototype.filter`)
  with its lemmas.
- `mock_data.dfy` (`MockData`): the records, the seed data and the totals.
- `clientes.dfy` (`Clientes`): the customer list page.
- `relatorios.dfy` (`Relatorios`): the reports page.
- `cliente_detalhes.dfy` (`ClienteDetalhes`): the detail page.
- `novo_cliente.dfy` (`NovoCliente`): the form.

Modelling choices:

- `toLowerCase` is an ASCII case fold.
- `localeCompare` is code-point lexicographic comparison returning -1, 0 or 1. Only its
  total-order properties are used.
- `Array.prototype.sort` is a stable insertion sort driven by the page's own comparator.
  Stability is required of `sort` since ES2019.
- An unrecognised sort key falls to the name ordering, as in the comparator's `default:`
  branch.
- `Math.round(x * (t / 1000))` is modelled as `(x*t + 500) / 1000` with floor division.
  That is exact round-half-up, the rule `Math.round` applies. The floating-point
  representation of `t / 1000` is not modelled, so a few samples differ by one (see
  "## Left out").
- The status filter's "all" value is the string `"todos"`. Any other value is a free
  string compared against the record's status name, `"ativo"` or `"inativo"`.

## Model

| member | source | states |
|---|---|---|
| MockData.Ids | src/pages/Relatorios.tsx:32 | the id list has one entry per record, holding that record's id in store order |
| MockData.CountAtivos | src/data/mockData.ts:127 | the active count never exceeds the number of records |
| MockData.CountAtivosIsPositionCount | src/data/mockData.ts:127 | the active count equals the number of store positions whose record has status `ativo` |
| MockData.Percent | src/data/mockData.ts:131 | the percentage is absent exactly when the denominator is 0; otherwise it times the denominator gives 100 times the numerator; for a positive denominator it is positive exactly when the numerator is |
| MockData.GetTotalsData | src/data/mockData.ts:125-141 | `totalClientes` is the record count; `clientesAtivos` is the active count (`CountAtivos`) and at most `totalClientes`; `geracaoTotal` and `consumoTotal` are the generation and consumption sums over every record; `deltaTotal == geracaoTotal - consumoTotal`; `deltaPercentual` is absent iff `consumoTotal == 0`, otherwise `deltaPercentual * consumoTotal == deltaTotal * 100` |
| MockData.SumsAppend | src/data/mockData.ts:127-129 | the generation, consumption and delta sums and the active count all split over concatenation, so each is a plain fold over every record |
| MockData.SumGeracaoBounds | src/data/mockData.ts:128 | with non-negative readings, the generation sum is non-negative and at least every single record's generation |
| MockData.SumConsumoBounds | src/data/mockData.ts:129 | with non-negative readings, the consumption sum is non-negative and at least every single record's consumption |
| MockData.TotalsIgnoreStatus | src/data/mockData.ts:128-131 | changing one record's account status leaves the total count, both sums, the delta and the percentage unchanged: the sums are not filtered by status |
| MockData.DeltaTotalIsSumOfDeltas | src/data/mockData.ts:130 | when every record keeps `delta == geracaoTotal - consumoTotal`, the portfolio delta equals the sum of the per-record deltas |
| MockData.SeedWellFormed | src/data/mockData.ts:22-93 | every seed record keeps the delta invariant, and the seed ids are pairwise distinct |
| MockData.SeedTotals | src/data/mockData.ts:22-131 | on the seed data: 5 customers, 4 active, generation 5440, consumption 4300, delta 1140, and a defined percentage |
| MockData.SeedAlertsReferToCustomers | src/data/mockData.ts:107-122 | every seed alert's `cliente` is the `nome` of some seed record |
| Clientes.Lower | src/pages/Clientes.tsx:19 | folding keeps the length and lower-cases each ASCII capital, leaving other characters alone |
| Clientes.Includes | src/pages/Clientes.tsx:19 | `includes` holds iff the needle occurs as a contiguous slice at some position of the haystack |
| Clientes.EmptyTermMatchesAll | src/pages/Clientes.tsx:19 | an empty search term matches every name |
| Clientes.MatchesSearchCaseInsensitive | src/pages/Clientes.tsx:19 | the search test gives the same answer whether or not the name, or the term, is lower-cased first |
| Clientes.MatchesStatusSpec | src/pages/Clientes.tsx:20 | the status test admits every record for `"todos"`, only active records for `"ativo"`, only inactive ones for `"inativo"`, and none for any other value |
| Clientes.MatchesSpec | src/pages/Clientes.tsx:18-22 | a record passes the filter callback iff the folded term occurs as a slice of the folded name and the status test admits it |
| Common.Filter | src/pages/Clientes.tsx:18-22 | the filtered list is no longer than its input, and every element in it passes the test and comes from the input |
| Common.FilterMultiplicity | src/pages/Clientes.tsx:18-22 | each element passing the test keeps exactly its number of occurrences in the input; every other element disappears |
| Clientes.ParseSortKey | src/pages/Clientes.tsx:24-33 | `"delta"`, `"geracao"` and `"consumo"` select their numeric key; every other value selects the name ordering |
| Clientes.LocaleCompare | src/pages/Clientes.tsx:32 | the comparison returns -1, 0 or 1, and 0 exactly for equal strings |
| Clientes.LocaleCompareAntisym | src/pages/Clientes.tsx:32 | swapping the operands negates the comparison |
| Clientes.LocaleCompareTrans | src/pages/Clientes.tsx:32 | "not after" under the name comparison is transitive |
| Clientes.CompareOrder | src/pages/Clientes.tsx:23-33 | for `"delta"`, `"geracao"` and `"consumo"` a record goes first iff its value is larger; for names the comparison is 0 iff the names are equal and its sign flips when the operands swap |
| Clientes.CompareAntisym | src/pages/Clientes.tsx:23-33 | the page's comparator is antisymmetric for every sort key |
| Clientes.CompareTrans | src/pages/Clientes.tsx:23-33 | the page's comparator is transitive for every sort key, so it is a total preorder that `sort` may rely on |
| Clientes.SortBy | src/pages/Clientes.tsx:23-34 | the sorted output is a permutation of its input |
| Clientes.SortBySorted | src/pages/Clientes.tsx:23-34 | no output record goes after a later one under the comparator |
| Clientes.SortByStable | src/pages/Clientes.tsx:23-34 | among records whose keys tie, the output keeps their input order |
| Clientes.SortBySortedIdentity | src/pages/Clientes.tsx:23-34 | an input that is already in order comes back unchanged |
| Clientes.View | src/pages/Clientes.tsx:17-34 | the shown list is never longer than the store (its contents and order are given by `Clientes.ViewSpec`) |
| Clientes.ViewSpec | src/pages/Clientes.tsx:17-34 | each record's multiplicity in the output is its multiplicity in the store if it passes both tests, else 0; every output record is from the store and passes; every passing store record is shown; the output is ordered by the selected key |
| Clientes.ViewFilters | src/pages/Clientes.tsx:18-22 | every shown name contains the term after folding; with a status other than `"todos"` every shown record has exactly that status; an empty term with `"todos"` shows all records |
| Clientes.ViewOrder | src/pages/Clientes.tsx:25-32 | `"delta"`, `"geracao"` and `"consumo"` give non-increasing values of that field; any other key gives names in non-decreasing order |
| Clientes.ViewIdempotent | src/pages/Clientes.tsx:17-34 | applying the same search, filter and sort to the view's output reproduces it |
| Clientes.ViewUnfiltered | src/pages/Clientes.tsx:13-34 | with the initial controls (empty term, `"todos"`, `"nome"`) the view is the whole store sorted by name |
| Clientes.ResumoPagina | src/pages/Clientes.tsx:100-114 | "Total" is the store size; "Ativos" is the store's active count; "Resultados" is the number of filtered records and never exceeds "Total" |
| Clientes.ResumoIgnoresControls | src/pages/Clientes.tsx:100-107 | "Total" and "Ativos" are the same whatever the search, filter and sort |
| Relatorios.Toggle | src/pages/Relatorios.tsx:20-25 | toggling flips only the toggled id's membership. An unselected id is appended at the end. A selected id has every occurrence removed, the other ids keeping their order, and the list gets shorter |
| Relatorios.ToggleKeepsNoDup | src/pages/Relatorios.tsx:20-25 | a duplicate-free selection stays duplicate-free after a toggle |
| Relatorios.ToggleTwiceSameSet | src/pages/Relatorios.tsx:20-25 | toggling the same id twice restores the set of selected ids |
| Relatorios.ToggleTwiceRestores | src/pages/Relatorios.tsx:20-25 | toggling an unselected id twice restores the selection exactly |
| Relatorios.SelectAll | src/pages/Relatorios.tsx:28-34 | select-all clears the selection when its length equals the store size, and otherwise gives every store id in store order |
| Relatorios.SelectionBounded | src/pages/Relatorios.tsx:178-204 | a duplicate-free selection drawn from store ids is no longer than the store |
| Relatorios.SelectAllLengthTestSound | src/pages/Relatorios.tsx:28-34 | with distinct store ids, on a valid selection, "length equals store size" holds iff every store id is selected |
| Relatorios.Step | src/pages/Relatorios.tsx:14-34 | a toggle replaces the selection by its toggle, flipping the id's membership; select-all replaces it by the select-all result; each setter changes only its own field (report type, period, start date, end date) and leaves the selection alone |
| Relatorios.StepKeepsValidSelection | src/pages/Relatorios.tsx:20-34 | with distinct store ids, every event the page can raise keeps the selection duplicate-free and drawn from the store |
| Relatorios.RunKeepsValidSelection | src/pages/Relatorios.tsx:14-34 | every selection reachable from the empty initial one is valid and no longer than the store |
| Relatorios.ExportBlocked | src/pages/Relatorios.tsx:37 | the guard holds iff the report type is the empty string or no customer is selected; when it does not hold, both are non-empty |
| Relatorios.Export | src/pages/Relatorios.tsx:36-66 | an export is rejected, with the validation toast, exactly when the report type is empty or no customer is selected; otherwise the toast's title names the chosen format (PDF or Excel) |
| Relatorios.ExportSameGuard | src/pages/Relatorios.tsx:37-60 | the PDF and Excel handlers reject on exactly the same inputs, and that guard is the one that disables the buttons |
| Relatorios.PeriodLabel | src/pages/Relatorios.tsx:230-238 | the label is "Não selecionado" for the empty period, "início até fim" for `"personalizado"`, fixed labels for `"7"`, `"30"`, `"90"` and `"mes"`, and "Ano atual" for anything else |
| Relatorios.TipoLabel | src/pages/Relatorios.tsx:224 | an empty report type reads "Não selecionado"; any other is shown as is |
| Relatorios.SelectAllCaption | src/pages/Relatorios.tsx:178 | the button reads "Desmarcar Todos" exactly when the selection is as long as the store; then the next click clears it. Otherwise it reads "Selecionar Todos" and the next click selects as many ids as the store has records |
| ClienteDetalhes.Find | src/pages/ClienteDetalhes.tsx:12 | lookup is absent exactly when no record has the id; otherwise it gives a record with that id at a position before which no record has it |
| ClienteDetalhes.FindUnique | src/pages/ClienteDetalhes.tsx:12 | with distinct store ids, lookup returns the record holding the id |
| ClienteDetalhes.ScaleRound | src/pages/ClienteDetalhes.tsx:28-29 | the scaled value is within half a unit of `x * total / 1000`, with halves rounded up |
| ClienteDetalhes.ScaleRoundUnique | src/pages/ClienteDetalhes.tsx:28-29 | only one integer meets that rounding bound |
| ClienteDetalhes.ScaleRoundMonotone | src/pages/ClienteDetalhes.tsx:28-29 | for a non-negative sample, a larger customer total never gives a smaller scaled value |
| ClienteDetalhes.ScaledSeries | src/pages/ClienteDetalhes.tsx:26-30 | the series has the baseline's length, and each sample keeps its date. Generation and consumption are each rounded half-up from the exact value of baseline times customer total over 1000, not from the floating-point product the source computes |
| ClienteDetalhes.ScaledSeriesMonotone | src/pages/ClienteDetalhes.tsx:26-30 | for a non-negative baseline, a customer with larger totals gets a pointwise larger series |
| ClienteDetalhes.ScaledSeriesIdentity | src/pages/ClienteDetalhes.tsx:26-30 | a customer with both totals equal to 1000 gets the baseline itself |
| ClienteDetalhes.Eficiencia | src/pages/ClienteDetalhes.tsx:245 | efficiency is absent exactly when consumption is 0; otherwise efficiency times consumption is 100 times generation |
| ClienteDetalhes.EficienciaAbove100IffSurplus | src/pages/ClienteDetalhes.tsx:245 | for a consistent record with positive consumption, efficiency exceeds 100% iff the delta is positive |
| ClienteDetalhes.DeltaBadgeOf | src/pages/ClienteDetalhes.tsx:136-139 | a delta above 0 gets the "+" prefix and the default variant; 0 or below gets no prefix and the warning variant |
| ClienteDetalhes.DeltaBadgeAgreesWithEficiencia | src/pages/ClienteDetalhes.tsx:136-139 | for a consistent record with positive consumption, the delta card shows the default variant exactly when the efficiency card shows more than 100% |
| ClienteDetalhes.Page | src/pages/ClienteDetalhes.tsx:10-30 | the not-found screen appears exactly when no record has the id. Otherwise the page shows the first store record with that id. Its series has the baseline's dates, with each sample rounded half-up from baseline times the customer's total over 1000. Its efficiency is absent iff consumption is 0, and otherwise times consumption gives 100 times generation. Its badge has the "+" prefix and default variant iff the delta is positive |
| ClienteDetalhes.PageOfListedIds | src/pages/ClienteDetalhes.tsx:12-23 | every id some store record carries opens a detail page for a record with that id |
| ClienteDetalhes.PageOfUnlistedId | src/pages/ClienteDetalhes.tsx:12-23 | an id no store record carries opens the not-found screen |
| ClienteDetalhes.SeedListedPages | src/pages/ClienteDetalhes.tsx:12-23 | on the seed, every listed id opens a detail page |
| ClienteDetalhes.SeedUnknownPage | src/pages/ClienteDetalhes.tsx:12-23 | on the seed, id "6" opens the not-found screen |
| NovoCliente.Submit | src/pages/NovoCliente.tsx:24-45 | a submit is rejected iff name, e-mail, phone or address is empty. Otherwise it confirms with the customer's name and navigates to `/clientes` |
| NovoCliente.SubmitIgnoresOptionalFields | src/pages/NovoCliente.tsx:28 | notes and status never change the submit outcome |
| NovoCliente.InitialFormRejected | src/pages/NovoCliente.tsx:15-35 | the untouched initial form is rejected |
| NovoCliente.Reset | src/pages/NovoCliente.tsx:47-56 | reset empties every text field and sets status to active, which is exactly the initial form state |
| NovoCliente.ResetIdempotent | src/pages/NovoCliente.tsx:47-56 | resetting twice equals resetting once |

## Left out

- Theme handling, the settings page, the layout, the sidebar, metric cards and status
  badges are left out. They are browser storage, DOM classes and presentation lookups.
- The home page is left out. It renders the totals, the baseline chart and the alert list.
  Its only computation besides `getTotalsData` is a per-day efficiency formatted with
  floating-point `toFixed(1)`.
- Chart rendering, number and date formatting (`toLocaleString`, `toFixed(1)`) and the
  fixed monthly table of the detail page are left out.
- Toasts and navigation are returned as values. Nothing is displayed or routed.
- ClienteDetalhes.ScaleRound, ClienteDetalhes.ScaledSeries, ClienteDetalhes.Page: the
  model rounds the exact value of `x * total / 1000`. The source multiplies by the
  floating-point quotient `total / 1000`, whose product can land just below a half and
  round down where the exact value rounds up. The seed data has one such sample. Pedro
  Costa's generation total is 1150, and the 2024-01-07 generation sample is 50. In double
  arithmetic `50 * (1150 / 1000)` is 57.49999999999999, so the chart shows 57. The model
  gives 58.
- MockData.Percent, ClienteDetalhes.Eficiencia: the model uses exact reals. It does not
  reproduce the source's floating-point result, or the `Infinity`/`NaN` the source
  produces on a zero denominator (`None` stands for those).
- Clientes.LocaleCompare: this is code-point order, not a locale collation. Accented names
  may sort differently from a browser. Letter case also differs: every upper-case initial
  comes before every lower-case one, so "Bruno" sorts before "ana", whereas a locale
  collation puts "ana" first.
- NovoCliente.Submit: only `handleSubmit` is modelled. The browser's native form validation
  is not: the `required` attributes on name, e-mail, phone and address and the
  `type="email"` check on e-mail stop the submit before the handler runs. An empty required
  field therefore never reaches the rejection toast in a browser, and a malformed e-mail
  such as "abc" that the model accepts as `Saved` is blocked there.
- Clientes.Lower: only ASCII capitals are folded, whereas `toLowerCase` also folds
  accented capitals.
- The seed's stored `deltaPercentual` values are pre-rounded to one decimal place. They
  are kept as data, and no equality with the formula is claimed.
- Concrete search scenarios over the seed names are not proved. The general view lemmas
  cover them.
- The report preview's list of selected names (a `find` per selected id) is left out. It
  is presentation over the same lookup that ClienteDetalhes.Find models.

=== FILE: cliente_detalhes.dfy ===
/** The customer detail page: lookup by id with a not-found branch, the per-customer daily
    series scaled from the shared baseline, the efficiency figure, and the delta badge. */
module ClienteDetalhes {
  import opened Common
  import opened MockData

  // ---------------------------------------------------------------------------
  // Lookup
  // ---------------------------------------------------------------------------

  /** `mockClientes.find(c => c.id === id)`: the first record carrying `id`, if any. */
  function Find(store: seq<Cliente>, id: string): (r: Option<Cliente>)
    ensures r.None? <==> forall i :: 0 <= i < |store| ==> store[i].id != id
    ensures r.Some? ==> r.value.id == id
                        && exists i :: 0 <= i < |store| && store[i] == r.value
                                       && forall j :: 0 <= j < i ==> store[j].id != id
  {
    if store == [] then None
    else if store[0].id == id then Some(store[0])
    else
      var r := Find(store[1..], id);
      assert forall i :: 1 <= i < |store| ==> store[i] == store[1..][i - 1];
      r
  }

  /** With distinct ids, lookup returns the record at the position holding `id`. */
  lemma FindUnique(store: seq<Cliente>, id: string, k: int)
    requires NoDup(Ids(store))
    requires 0 <= k < |store| && store[k].id == id
    ensures Find(store, id) == Some(store[k])
  {
  }

  // ---------------------------------------------------------------------------
  // Scaled daily series
  // ---------------------------------------------------------------------------

  /** `Math.round(x * (total / 1000))`, in exact arithmetic: the nearest integer, halves up. */
  function ScaleRound(x: int, total: int): (r: int)
    ensures 1000 * r - 500 <= x * total < 1000 * r + 500
  {
    (x * total + 500) / 1000
  }

  /** The rounding bound pins the result down: no other integer satisfies it. */
  lemma ScaleRoundUnique(x: int, total: int, m: int)
    requires 1000 * m - 500 <= x * total < 1000 * m + 500
    ensures m == ScaleRound(x, total)
  {
  }

  /** A larger customer total never gives a smaller scaled value for a non-negative sample. */
  lemma ScaleRoundMonotone(x: int, t1: int, t2: int)
    requires x >= 0 && t1 <= t2
    ensures ScaleRound(x, t1) <= ScaleRound(x, t2)
  {
  }

  /** `dadosCliente`: the baseline with each sample scaled by the customer's totals. */
  function ScaledSeries(baseline: seq<DadosGeracao>, c: Cliente): (r: seq<DadosGeracao>)
    ensures |r| == |baseline|
    ensures forall i :: 0 <= i < |r| ==> r[i].data == baseline[i].data
    ensures forall i :: 0 <= i < |r| ==>
              1000 * r[i].geracao - 500 <= baseline[i].geracao * c.geracaoTotal < 1000 * r[i].geracao + 500
    ensures forall i :: 0 <= i < |r| ==>
              1000 * r[i].consumo - 500 <= baseline[i].consumo * c.consumoTotal < 1000 * r[i].consumo + 500
  {
    seq(|baseline|, i requires 0 <= i < |baseline| =>
      DadosGeracao(baseline[i].data,
                   ScaleRound(baseline[i].geracao, c.geracaoTotal),
                   ScaleRound(baseline[i].consumo, c.consumoTotal)))
  }

  /** For a non-negative baseline, a customer with larger totals gets a pointwise larger series. */
  lemma ScaledSeriesMonotone(baseline: seq<DadosGeracao>, c1: Cliente, c2: Cliente)
    requires forall i :: 0 <= i < |baseline| ==> baseline[i].geracao >= 0 && baseline[i].consumo >= 0
    requires c1.geracaoTotal <= c2.geracaoTotal && c1.consumoTotal <= c2.consumoTotal
    ensures var s1 := ScaledSeries(baseline, c1);
            var s2 := ScaledSeries(baseline, c2);
            forall i :: 0 <= i < |baseline| ==> s1[i].geracao <= s2[i].geracao && s1[i].consumo <= s2[i].consumo
  {
  }

  /** A customer whose totals are exactly 1000 kWh sees the baseline unchanged. */
  lemma ScaledSeriesIdentity(baseline: seq<DadosGeracao>, c: Cliente)
    requires c.geracaoTotal == 1000 && c.consumoTotal == 1000
    ensures ScaledSeries(baseline, c) == baseline
  {
  }

  // ---------------------------------------------------------------------------
  // Efficiency and delta badge
  // ---------------------------------------------------------------------------

  /** "Eficiência": generation as a percentage of consumption, absent when consumption is zero. */
  function Eficiencia(c: Cliente): (r: Option<real>)
    ensures r.None? <==> c.consumoTotal == 0
    ensures r.Some? ==> r.value * (c.consumoTotal as real) == (c.geracaoTotal as real) * 100.0
  {
    Percent(c.geracaoTotal, c.consumoTotal)
  }

  /** For a consistent record with positive consumption, efficiency exceeds 100% exactly when
      the delta is a surplus. */
  lemma EficienciaAbove100IffSurplus(c: Cliente)
    requires DeltaConsistent(c) && c.consumoTotal > 0
    ensures Eficiencia(c).Some?
    ensures Eficiencia(c).value > 100.0 <==> c.delta > 0
  {
    var e := Eficiencia(c).value;
    var den := c.consumoTotal as real;
    assert e * den == (c.geracaoTotal as real) * 100.0;
    if e > 100.0 {
      assert e * den > 100.0 * den;
      assert c.geracaoTotal as real > den;
    } else {
      assert e * den <= 100.0 * den;
      assert c.geracaoTotal as real <= den;
    }
  }

  /** Card variants used for the delta card. */
  datatype Variant = Default | Warning

  /** How a delta is shown: a sign prefix and the card variant. */
  datatype DeltaBadge = DeltaBadge(prefix: string, variant: Variant)

  /** A strictly positive delta gets "+" and the default variant; zero or negative gets no
      prefix and the warning variant. */
  function DeltaBadgeOf(delta: int): (b: DeltaBadge)
    ensures b.prefix == "+" <==> delta > 0
    ensures b.prefix == "" <==> delta <= 0
    ensures b.variant == Default <==> delta > 0
  {
    if delta > 0 then DeltaBadge("+", Default) else DeltaBadge("", Warning)
  }

  /** The delta card and the efficiency card agree: for a consistent record with positive
      consumption, the badge shows the default variant exactly when efficiency is above 100%. */
  lemma DeltaBadgeAgreesWithEficiencia(c: Cliente)
    requires DeltaConsistent(c) && c.consumoTotal > 0
    ensures Eficiencia(c).Some?
    ensures DeltaBadgeOf(c.delta).variant == Default <==> Eficiencia(c).value > 100.0
  {
    EficienciaAbove100IffSurplus(c);
  }

  // ---------------------------------------------------------------------------
  // The page
  // ---------------------------------------------------------------------------

  /** What the detail page renders. */
  datatype DetailPage =
    | NaoEncontrado
    | Detalhes(cliente: Cliente, serie: seq<DadosGeracao>, eficiencia: Option<real>, badge: DeltaBadge)

  /** The page for a route id: the not-found screen, or the record and its derived figures. */
  function Page(store: seq<Cliente>, baseline: seq<DadosGeracao>, id: string): (p: DetailPage)
    ensures p.NaoEncontrado? <==> forall i :: 0 <= i < |store| ==> store[i].id != id
    ensures p.Detalhes? ==> p.cliente.id == id
                            && exists i :: 0 <= i < |store| && store[i] == p.cliente
                                           && forall j :: 0 <= j < i ==> store[j].id != id
    ensures p.Detalhes? ==> |p.serie| == |baseline|
                            && (forall i :: 0 <= i < |p.serie| ==> p.serie[i].data == baseline[i].data)
                            && (forall i :: 0 <= i < |p.serie| ==>
                                  1000 * p.serie[i].geracao - 500 <= baseline[i].geracao * p.cliente.geracaoTotal
                                  < 1000 * p.serie[i].geracao + 500)
                            && (forall i :: 0 <= i < |p.serie| ==>
                                  1000 * p.serie[i].consumo - 500 <= baseline[i].consumo * p.cliente.consumoTotal
                                  < 1000 * p.serie[i].consumo + 500)
    ensures p.Detalhes? ==> (p.eficiencia.None? <==> p.cliente.consumoTotal == 0)
                            && (p.eficiencia.Some? ==>
                                  p.eficiencia.value * (p.cliente.consumoTotal as real)
                                  == (p.cliente.geracaoTotal as real) * 100.0)
    ensures p.Detalhes? ==> (p.badge.prefix == "+" <==> p.cliente.delta > 0)
                            && (p.badge.variant == Default <==> p.cliente.delta > 0)
  {
    match Find(store, id)
    case None => NaoEncontrado
    case Some(c) => Detalhes(c, ScaledSeries(baseline, c), Eficiencia(c), DeltaBadgeOf(c.delta))
  }

  /** Every id the store lists opens a detail page showing a record with that id. */
  lemma PageOfListedIds(store: seq<Cliente>, baseline: seq<DadosGeracao>)
    ensures forall k :: 0 <= k < |store| ==> Page(store, baseline, store[k].id).Detalhes?
    ensures forall k :: 0 <= k < |store| ==> Page(store, baseline, store[k].id).cliente.id == store[k].id
  {
  }

  /** An id no store record carries opens the not-found screen. */
  lemma PageOfUnlistedId(store: seq<Cliente>, baseline: seq<DadosGeracao>, id: string)
    requires forall i :: 0 <= i < |store| ==> store[i].id != id
    ensures Page(store, baseline, id).NaoEncontrado?
  {
  }

  /** On the seed, every listed id opens a detail page. */
  lemma SeedListedPages()
    ensures forall i :: 0 <= i < |MockClientes| ==> Page(MockClientes, MockGeracaoDiaria, MockClientes[i].id).Detalhes?
  {
    PageOfListedIds(MockClientes, MockGeracaoDiaria);
  }

  /** On the seed, the unknown id "6" opens the not-found screen. */
  lemma SeedUnknownPage()
    ensures Page(MockClientes, MockGeracaoDiaria, "6").NaoEncontrado?
  {
    assert forall i :: 0 <= i < |MockClientes| ==> MockClientes[i].id != "6";
    PageOfUnlistedId(MockClientes, MockGeracaoDiaria, "6");
  }
}

=== FILE: clientes.dfy ===
/** The customer list page: a case-insensitive name search combined with a status filter,
    followed by a stable sort on one of four keys, plus the summary counters. */
module Clientes {
  import opened Common
  import opened MockData

  // ---------------------------------------------------------------------------
  // Text matching
  // ---------------------------------------------------------------------------

  /** Case fold of one character (ASCII letters only). */
  function LowerChar(c: char): (r: char)
    ensures 'A' <= c <= 'Z' ==> r as int == c as int + 32
    ensures !('A' <= c <= 'Z') ==> r == c
  {
    if 'A' <= c <= 'Z' then (c as int + 32) as char else c
  }

  /** `toLowerCase`, folding ASCII upper-case letters. */
  function Lower(s: string): (r: string)
    ensures |r| == |s|
    ensures forall i :: 0 <= i < |s| ==> r[i] == LowerChar(s[i])
  {
    if s == [] then [] else [LowerChar(s[0])] + Lower(s[1..])
  }

  /** Folding twice is folding once. */
  lemma LowerIdempotent(s: string)
    ensures Lower(Lower(s)) == Lower(s)
  {
  }

  /** `needle` occurs in `hay` starting at position `i`. */
  ghost predicate OccursAt(hay: string, needle: string, i: nat) {
    i + |needle| <= |hay| && hay[i..i + |needle|] == needle
  }

  /** `String.prototype.includes`: does `needle` occur somewhere in `hay`? */
  function Includes(hay: string, needle: string): (r: bool)
    ensures r <==> exists i: nat :: OccursAt(hay, needle, i)
    decreases |hay|
  {
    if |needle| > |hay| then
      assert forall i: nat :: !OccursAt(hay, needle, i);
      false
    else if hay[..|needle|] == needle then
      assert OccursAt(hay, needle, 0);
      true
    else
      var rest := Includes(hay[1..], needle);
      assert forall i: nat :: OccursAt(hay[1..], needle, i) <==> OccursAt(hay, needle, i + 1) by {
        forall i: nat ensures OccursAt(hay[1..], needle, i) <==> OccursAt(hay, needle, i + 1) {
          if i + 1 + |needle| <= |hay| {
            assert hay[1..][i..i + |needle|] == hay[i + 1..i + 1 + |needle|];
          }
        }
      }
      assert !OccursAt(hay, needle, 0);
      assert forall i: nat :: OccursAt(hay, needle, i) ==> i > 0 && OccursAt(hay[1..], needle, i - 1);
      rest
  }

  /** The empty search term occurs in every name. */
  lemma EmptyTermMatchesAll(hay: string)
    ensures Includes(hay, "")
  {
  }

  // ---------------------------------------------------------------------------
  // Filtering
  // ---------------------------------------------------------------------------

  /** The value of the status select that disables the status test. */
  const Todos: string := "todos"

  /** The search predicate: the lower-cased name contains the lower-cased term. */
  predicate MatchesSearch(c: Cliente, searchTerm: string) {
    Includes(Lower(c.nome), Lower(searchTerm))
  }

  /** The status predicate: "todos" admits everything, any other value must equal the status. */
  predicate MatchesStatus(c: Cliente, statusFilter: string) {
    statusFilter == Todos || StatusName(c.status) == statusFilter
  }

  /** Both predicates, as combined by the page's filter callback. */
  predicate Matches(c: Cliente, searchTerm: string, statusFilter: string) {
    MatchesSearch(c, searchTerm) && MatchesStatus(c, statusFilter)
  }

  /** The search ignores letter case on both sides: folding the name or the term first
      changes nothing. */
  lemma MatchesSearchCaseInsensitive(c: Cliente, searchTerm: string)
    ensures MatchesSearch(c, searchTerm) <==> MatchesSearch(c.(nome := Lower(c.nome)), searchTerm)
    ensures MatchesSearch(c, searchTerm) <==> MatchesSearch(c, Lower(searchTerm))
  {
    LowerIdempotent(c.nome);
    LowerIdempotent(searchTerm);
  }

  /** The status test spelled out over the two statuses: "todos" admits every record, "ativo"
      and "inativo" admit their own status, and any other value admits nothing. */
  lemma MatchesStatusSpec(c: Cliente, statusFilter: string)
    ensures MatchesStatus(c, statusFilter) <==>
              statusFilter == "todos"
              || (statusFilter == "ativo" && c.status == Ativo)
              || (statusFilter == "inativo" && c.status == Inativo)
  {
  }

  /** A record passes the page's filter callback exactly when the folded term occurs in its
      folded name and the status test admits it. */
  lemma MatchesSpec(c: Cliente, searchTerm: string, statusFilter: string)
    ensures Matches(c, searchTerm, statusFilter) <==>
              (exists i: nat :: OccursAt(Lower(c.nome), Lower(searchTerm), i))
              && (statusFilter == "todos"
                  || (statusFilter == "ativo" && c.status == Ativo)
                  || (statusFilter == "inativo" && c.status == Inativo))
  {
    assert MatchesSearch(c, searchTerm) == Includes(Lower(c.nome), Lower(searchTerm));
    MatchesStatusSpec(c, statusFilter);
  }

  /** The filter callback as a value. */
  function MatchesFn(searchTerm: string, statusFilter: string): Cliente -> bool {
    c => Matches(c, searchTerm, statusFilter)
  }

  /** The filtered (not yet sorted) records. */
  function FilterClientes(cs: seq<Cliente>, searchTerm: string, statusFilter: string): seq<Cliente> {
    Filter(cs, MatchesFn(searchTerm, statusFilter))
  }

  // ---------------------------------------------------------------------------
  // Sorting
  // ---------------------------------------------------------------------------

  /** The four orderings the page offers. */
  datatype SortKey = ByNome | ByDelta | ByGeracao | ByConsumo

  /** The sort select's value; anything unrecognised falls to the name ordering. */
  function ParseSortKey(sortBy: string): (k: SortKey)
    ensures k == ByDelta <==> sortBy == "delta"
    ensures k == ByGeracao <==> sortBy == "geracao"
    ensures k == ByConsumo <==> sortBy == "consumo"
    ensures k == ByNome <==> sortBy !in {"delta", "geracao", "consumo"}
  {
    if sortBy == "delta" then ByDelta
    else if sortBy == "geracao" then ByGeracao
    else if sortBy == "consumo" then ByConsumo
    else ByNome
  }

  /** `localeCompare`, taken as code-point lexicographic order: negative, zero or positive. */
  function LocaleCompare(a: string, b: string): (r: int)
    ensures -1 <= r <= 1
    ensures r == 0 <==> a == b
  {
    if a == [] && b == [] then 0
    else if a == [] then -1
    else if b == [] then 1
    else if a[0] < b[0] then -1
    else if a[0] > b[0] then 1
    else
      var r := LocaleCompare(a[1..], b[1..]);
      assert a == [a[0]] + a[1..] && b == [b[0]] + b[1..];
      r
  }

  /** Swapping the operands of `LocaleCompare` flips the sign. */
  lemma {:induction false} LocaleCompareAntisym(a: string, b: string)
    ensures LocaleCompare(a, b) == -LocaleCompare(b, a)
  {
    if a != [] && b != [] && a[0] == b[0] {
      LocaleCompareAntisym(a[1..], b[1..]);
    }
  }

  /** `LocaleCompare(_, _) <= 0` is transitive. */
  lemma {:induction false} LocaleCompareTrans(a: string, b: string, c: string)
    requires LocaleCompare(a, b) <= 0 && LocaleCompare(b, c) <= 0
    ensures LocaleCompare(a, c) <= 0
  {
    if a != [] && b != [] && c != [] && a[0] == b[0] && b[0] == c[0] {
      LocaleCompareTrans(a[1..], b[1..], c[1..]);
    }
  }

  /** The page's sort comparator: negative means `a` goes first. Numeric keys sort descending
      (`b.x - a.x`), the name key ascending. */
  function Compare(k: SortKey, a: Cliente, b: Cliente): int {
    match k
    case ByDelta => b.delta - a.delta
    case ByGeracao => b.geracaoTotal - a.geracaoTotal
    case ByConsumo => b.consumoTotal - a.consumoTotal
    case ByNome => LocaleCompare(a.nome, b.nome)
  }

  /** What the comparator's sign means for each key: a negative result puts `a` first, so the
      numeric keys put the larger value first and the name key the smaller name. */
  lemma CompareOrder(k: SortKey, a: Cliente, b: Cliente)
    ensures k == ByDelta ==> (Compare(k, a, b) < 0 <==> a.delta > b.delta)
    ensures k == ByGeracao ==> (Compare(k, a, b) < 0 <==> a.geracaoTotal > b.geracaoTotal)
    ensures k == ByConsumo ==> (Compare(k, a, b) < 0 <==> a.consumoTotal > b.consumoTotal)
    ensures k == ByNome ==> (Compare(k, a, b) == 0 <==> a.nome == b.nome)
    ensures k == ByNome ==> (Compare(k, a, b) < 0 <==> Compare(k, b, a) > 0)
  {
    if k == ByNome {
      LocaleCompareAntisym(a.nome, b.nome);
    }
  }

  /** The comparator is antisymmetric. */
  lemma CompareAntisym(k: SortKey, a: Cliente, b: Cliente)
    ensures Compare(k, a, b) == -Compare(k, b, a)
  {
    if k == ByNome {
      LocaleCompareAntisym(a.nome, b.nome);
    }
  }

  /** The comparator's "not after" relation is transitive. */
  lemma CompareTrans(k: SortKey, a: Cliente, b: Cliente, c: Cliente)
    requires Compare(k, a, b) <= 0 && Compare(k, b, c) <= 0
    ensures Compare(k, a, c) <= 0
  {
    if k == ByNome {
      LocaleCompareTrans(a.nome, b.nome, c.nome);
    }
  }

  /** Strictly-before followed by not-after is strictly-before. */
  lemma CompareStrictTrans(k: SortKey, a: Cliente, b: Cliente, c: Cliente)
    requires Compare(k, a, b) < 0 && Compare(k, b, c) <= 0
    ensures Compare(k, a, c) < 0
  {
    if Compare(k, a, c) >= 0 {
      CompareAntisym(k, a, c);
      CompareTrans(k, b, c, a);
      CompareAntisym(k, a, b);
    }
  }

  /** Comparing equal to a common record makes two records compare equal. */
  lemma CompareTiesTrans(k: SortKey, a: Cliente, b: Cliente, y: Cliente)
    requires Compare(k, a, y) == 0 && Compare(k, b, y) == 0
    ensures Compare(k, a, b) == 0
  {
  }

  /** No element of `s` goes after a later one. */
  ghost predicate Sorted(k: SortKey, s: seq<Cliente>) {
    forall i, j :: 0 <= i < j < |s| ==> Compare(k, s[i], s[j]) <= 0
  }

  /** Inserts `x` after every element of `t` that does not go after it, so that among equal
      keys `x` lands last. */
  function Insert(k: SortKey, x: Cliente, t: seq<Cliente>): (r: seq<Cliente>)
    ensures |r| == |t| + 1
    ensures multiset(r) == multiset(t) + multiset{x}
  {
    if t == [] then [x]
    else if Compare(k, x, t[0]) < 0 then [x] + t
    else
      assert t == [t[0]] + t[1..];
      [t[0]] + Insert(k, x, t[1..])
  }

  /** The stable sort the page applies (`Array.prototype.sort` with the comparator), built
      by inserting the input's elements one by one in input order. */
  function SortBy(k: SortKey, s: seq<Cliente>): (r: seq<Cliente>)
    ensures multiset(r) == multiset(s)
    ensures |r| == |s|
  {
    if s == [] then []
    else
      var n := |s| - 1;
      assert s == s[..n] + [s[n]];
      Insert(k, s[n], SortBy(k, s[..n]))
  }

  /** The elements after insertion are the old ones and `x`. */
  lemma InsertMembers(k: SortKey, x: Cliente, t: seq<Cliente>, e: Cliente)
    ensures e in Insert(k, x, t) <==> e == x || e in t
  {
  }

  /** Insertion keeps a sorted sequence sorted. */
  lemma {:induction false} InsertSorted(k: SortKey, x: Cliente, t: seq<Cliente>)
    requires Sorted(k, t)
    ensures Sorted(k, Insert(k, x, t))
  {
    if t == [] {
    } else if Compare(k, x, t[0]) < 0 {
      var r := [x] + t;
      forall j | 0 < j < |r| ensures Compare(k, x, r[j]) <= 0 {
        if j > 1 {
          CompareStrictTrans(k, x, t[0], t[j - 1]);
        }
      }
    } else {
      var rest := Insert(k, x, t[1..]);
      InsertSorted(k, x, t[1..]);
      CompareAntisym(k, x, t[0]);
      forall e | e in rest ensures Compare(k, t[0], e) <= 0 {
        InsertMembers(k, x, t[1..], e);
        if e != x {
          var j :| 0 <= j < |t[1..]| && t[1..][j] == e;
          assert t[j + 1] == e;
        }
      }
      var r := [t[0]] + rest;
      forall i, j | 0 <= i < j < |r| ensures Compare(k, r[i], r[j]) <= 0 {
        if i == 0 {
          assert r[j] in rest;
        } else {
          assert r[i] == rest[i - 1] && r[j] == rest[j - 1];
        }
      }
    }
  }

  /** Sorting yields a sorted sequence. */
  lemma {:induction false} SortBySorted(k: SortKey, s: seq<Cliente>)
    ensures Sorted(k, SortBy(k, s))
  {
    if s != [] {
      var n := |s| - 1;
      SortBySorted(k, s[..n]);
      InsertSorted(k, s[n], SortBy(k, s[..n]));
    }
  }

  /** Inserting an element that goes after everything already there appends it. */
  lemma {:induction false} InsertAtEnd(k: SortKey, x: Cliente, t: seq<Cliente>)
    requires forall i :: 0 <= i < |t| ==> Compare(k, t[i], x) <= 0
    ensures Insert(k, x, t) == t + [x]
  {
    if t != [] {
      CompareAntisym(k, t[0], x);
      InsertAtEnd(k, x, t[1..]);
      assert [t[0]] + (t[1..] + [x]) == t + [x];
    }
  }

  /** Sorting an already sorted sequence leaves it unchanged. */
  lemma {:induction false} SortBySortedIdentity(k: SortKey, s: seq<Cliente>)
    requires Sorted(k, s)
    ensures SortBy(k, s) == s
  {
    if s != [] {
      var n := |s| - 1;
      assert Sorted(k, s[..n]);
      SortBySortedIdentity(k, s[..n]);
      InsertAtEnd(k, s[n], s[..n]);
      assert s[..n] + [s[n]] == s;
    }
  }

  /** The records whose key ties with `y`'s key, in their order within `s`. */
  function TiesWith(k: SortKey, s: seq<Cliente>, y: Cliente): seq<Cliente> {
    Filter(s, TieFn(k, y))
  }

  /** "Ties with `y`" as a value. */
  function TieFn(k: SortKey, y: Cliente): Cliente -> bool {
    e => Compare(k, e, y) == 0
  }

  /** When `x` goes strictly before the head of a sorted `t`, no element of `t` ties with `x`. */
  lemma NoTiesAfter(k: SortKey, x: Cliente, t: seq<Cliente>, y: Cliente)
    requires Sorted(k, t) && t != [] && Compare(k, x, t[0]) < 0
    requires Compare(k, x, y) == 0
    ensures TiesWith(k, t, y) == []
  {
    forall i | 0 <= i < |t| ensures Compare(k, t[i], y) != 0 {
      if i > 0 {
        CompareStrictTrans(k, x, t[0], t[i]);
      }
      if Compare(k, t[i], y) == 0 {
        CompareTiesTrans(k, x, t[i], y);
      }
    }
    FilterNonePass(t, TieFn(k, y));
  }

  /** Inserting `x` places it after every record whose key ties with it. */
  lemma {:induction false} InsertTies(k: SortKey, x: Cliente, t: seq<Cliente>, y: Cliente)
    requires Sorted(k, t)
    ensures TiesWith(k, Insert(k, x, t), y)
         == TiesWith(k, t, y) + (if Compare(k, x, y) == 0 then [x] else [])
  {
    var p := TieFn(k, y);
    var own := if Compare(k, x, y) == 0 then [x] else [];
    assert Filter([x], p) == own;
    if t == [] {
      assert Insert(k, x, t) == [x];
      assert TiesWith(k, t, y) == [];
    } else if Compare(k, x, t[0]) < 0 {
      assert Insert(k, x, t) == [x] + t;
      FilterAppend([x], t, p);
      if Compare(k, x, y) == 0 {
        NoTiesAfter(k, x, t, y);
      }
    } else {
      var rest := Insert(k, x, t[1..]);
      assert Sorted(k, t[1..]);
      InsertTies(k, x, t[1..], y);
      assert Insert(k, x, t) == [t[0]] + rest;
      FilterShift(t, rest, p, own);
    }
  }

  /** Stability: among records whose keys tie, the sorted output keeps the input order. */
  lemma {:induction false} SortByStable(k: SortKey, s: seq<Cliente>, y: Cliente)
    ensures TiesWith(k, SortBy(k, s), y) == TiesWith(k, s, y)
  {
    if s != [] {
      var n := |s| - 1;
      SortByStable(k, s[..n], y);
      SortBySorted(k, s[..n]);
      InsertTies(k, s[n], SortBy(k, s[..n]), y);
      FilterSnoc(s, TieFn(k, y));
    }
  }

  // ---------------------------------------------------------------------------
  // The page
  // ---------------------------------------------------------------------------

  /** `filteredClientes`: filter, then sort. */
  function View(cs: seq<Cliente>, searchTerm: string, statusFilter: string, sortBy: string): (r: seq<Cliente>)
    ensures |r| <= |cs|
  {
    SortBy(ParseSortKey(sortBy), FilterClientes(cs, searchTerm, statusFilter))
  }

  /** What the view contains and in which order. */
  lemma ViewSpec(cs: seq<Cliente>, searchTerm: string, statusFilter: string, sortBy: string)
    ensures var r := View(cs, searchTerm, statusFilter, sortBy);
            && (forall x :: multiset(r)[x] == if Matches(x, searchTerm, statusFilter) then multiset(cs)[x] else 0)
            && (forall i :: 0 <= i < |r| ==> r[i] in cs && Matches(r[i], searchTerm, statusFilter))
            && (forall c :: c in cs && Matches(c, searchTerm, statusFilter) ==> c in r)
            && Sorted(ParseSortKey(sortBy), r)
  {
    var r := View(cs, searchTerm, statusFilter, sortBy);
    var p := MatchesFn(searchTerm, statusFilter);
    var f := FilterClientes(cs, searchTerm, statusFilter);
    SortBySorted(ParseSortKey(sortBy), f);
    forall x ensures multiset(r)[x] == if Matches(x, searchTerm, statusFilter) then multiset(cs)[x] else 0 {
      FilterMultiplicity(cs, p, x);
    }
    forall i | 0 <= i < |r| ensures r[i] in cs && Matches(r[i], searchTerm, statusFilter) {
      assert r[i] in multiset(r);
    }
    forall c | c in cs && Matches(c, searchTerm, statusFilter) ensures c in r {
      FilterComplete(cs, p, c);
      assert c in multiset(f);
    }
  }

  /** The two filter tests spelled out: every shown name contains the term case-insensitively,
      a status other than "todos" must match exactly, and with an empty term and "todos"
      every record is shown. */
  lemma ViewFilters(cs: seq<Cliente>, searchTerm: string, statusFilter: string, sortBy: string)
    ensures var r := View(cs, searchTerm, statusFilter, sortBy);
            && (forall i :: 0 <= i < |r| ==> Includes(Lower(r[i].nome), Lower(searchTerm)))
            && (statusFilter != Todos ==> forall i :: 0 <= i < |r| ==> StatusName(r[i].status) == statusFilter)
            && (searchTerm == "" && statusFilter == Todos ==> |r| == |cs|)
  {
    ViewSpec(cs, searchTerm, statusFilter, sortBy);
    if searchTerm == "" && statusFilter == Todos {
      forall i | 0 <= i < |cs| ensures Matches(cs[i], "", Todos) {
        EmptyTermMatchesAll(Lower(cs[i].nome));
      }
      FilterAllPass(cs, MatchesFn("", Todos));
    }
  }

  /** The numeric sort keys give non-increasing values; every other key gives names in
      non-decreasing order. */
  lemma ViewOrder(cs: seq<Cliente>, searchTerm: string, statusFilter: string, sortBy: string)
    ensures var r := View(cs, searchTerm, statusFilter, sortBy);
            forall i, j :: 0 <= i < j < |r| ==>
              (sortBy == "delta" ==> r[i].delta >= r[j].delta)
              && (sortBy == "geracao" ==> r[i].geracaoTotal >= r[j].geracaoTotal)
              && (sortBy == "consumo" ==> r[i].consumoTotal >= r[j].consumoTotal)
              && (sortBy !in {"delta", "geracao", "consumo"} ==> LocaleCompare(r[i].nome, r[j].nome) <= 0)
  {
    SortBySorted(ParseSortKey(sortBy), FilterClientes(cs, searchTerm, statusFilter));
  }

  /** Applying the view to its own output changes nothing. */
  lemma ViewIdempotent(cs: seq<Cliente>, searchTerm: string, statusFilter: string, sortBy: string)
    ensures var r := View(cs, searchTerm, statusFilter, sortBy);
            View(r, searchTerm, statusFilter, sortBy) == r
  {
    var k := ParseSortKey(sortBy);
    var r := View(cs, searchTerm, statusFilter, sortBy);
    ViewSpec(cs, searchTerm, statusFilter, sortBy);
    FilterAllPass(r, MatchesFn(searchTerm, statusFilter));
    SortBySortedIdentity(k, r);
  }

  /** With an empty term and "todos", the view is the whole store sorted by name. */
  lemma ViewUnfiltered(cs: seq<Cliente>)
    ensures View(cs, "", Todos, "nome") == SortBy(ByNome, cs)
  {
    forall i | 0 <= i < |cs| ensures Matches(cs[i], "", Todos) {
      EmptyTermMatchesAll(Lower(cs[i].nome));
    }
    FilterAllPass(cs, MatchesFn("", Todos));
  }

  /** The three counters above the table. */
  datatype Resumo = Resumo(total: nat, ativos: nat, resultados: nat)

  /** "Total" and "Ativos" are over the whole store; only "Resultados" sees the controls. */
  function ResumoPagina(cs: seq<Cliente>, searchTerm: string, statusFilter: string, sortBy: string): (r: Resumo)
    ensures r.total == |cs|
    ensures r.ativos == GetTotalsData(cs).clientesAtivos
    ensures r.resultados == |FilterClientes(cs, searchTerm, statusFilter)|
    ensures r.ativos <= r.total && r.resultados <= r.total
  {
    Resumo(|cs|, CountAtivos(cs), |View(cs, searchTerm, statusFilter, sortBy)|)
  }

  /** The "Total" and "Ativos" counters do not depend on search, filter or sort. */
  lemma ResumoIgnoresControls(cs: seq<Cliente>, t1: string, f1: string, s1: string, t2: string, f2: string, s2: string)
    ensures ResumoPagina(cs, t1, f1, s1).total == ResumoPagina(cs, t2, f2, s2).total
    ensures ResumoPagina(cs, t1, f1, s1).ativos == ResumoPagina(cs, t2, f2, s2).ativos
  {
  }
}

=== FILE: common.dfy ===
/** Small shared vocabulary: an optional value and facts about duplicate-free sequences. */
module Common {

  /** A value that may be absent: the model's stand-in for `undefined`, `NaN` and `Infinity`. */
  datatype Option<+T> = None | Some(value: T)

  /** No element occurs twice in `s`. */
  predicate NoDup<T(==)>(s: seq<T>) {
    forall i, j :: 0 <= i < j < |s| ==> s[i] != s[j]
  }

  /** The set of elements of a sequence. */
  function Elems<T>(s: seq<T>): set<T> {
    set x | x in s
  }

  /** A sequence has at least as many positions as distinct elements, and exactly as many
      when it has no duplicates. */
  lemma {:induction false} ElemsCard<T>(s: seq<T>)
    ensures |Elems(s)| <= |s|
    ensures NoDup(s) ==> |Elems(s)| == |s|
  {
    if |s| > 0 {
      var init := s[..|s| - 1];
      var last := s[|s| - 1];
      ElemsCard(init);
      assert Elems(s) == Elems(init) + {last};
      if NoDup(s) {
        assert NoDup(init) by {
          forall i, j | 0 <= i < j < |init| ensures init[i] != init[j] {
            assert init[i] == s[i] && init[j] == s[j];
          }
        }
        forall i | 0 <= i < |init| ensures init[i] != last {
          assert init[i] == s[i];
        }
        assert last !in Elems(init);
      }
    }
  }

  /** A subset is no larger than its superset. */
  lemma SubsetCard<T>(a: set<T>, b: set<T>)
    requires a <= b
    ensures |a| <= |b|
  {
    assert b == a + (b - a);
    assert a !! (b - a);
  }

  /** A subset with as many elements as its superset is the superset. */
  lemma SubsetSameCard<T>(a: set<T>, b: set<T>)
    requires a <= b
    requires |a| == |b|
    ensures a == b
  {
    assert b == a + (b - a);
    assert |b - a| == 0;
  }

  /** The elements of `s` that satisfy `p`, in their original order (`Array.prototype.filter`).
      Each element keeps exactly its multiplicity in `s` when it passes, and disappears otherwise. */
  function Filter<T(!new)>(s: seq<T>, p: T -> bool): (r: seq<T>)
    ensures |r| <= |s|
    ensures forall i :: 0 <= i < |r| ==> p(r[i]) && r[i] in s
  {
    if s == [] then []
    else
      (if p(s[0]) then [s[0]] else []) + Filter(s[1..], p)
  }

  /** Each element passing `p` keeps exactly its multiplicity in `s`; the others disappear. */
  lemma {:induction false} FilterMultiplicity<T(!new)>(s: seq<T>, p: T -> bool, x: T)
    ensures multiset(Filter(s, p))[x] == if p(x) then multiset(s)[x] else 0
  {
    if s != [] {
      FilterMultiplicity(s[1..], p, x);
      assert s == [s[0]] + s[1..];
    }
  }

  /** Every element of `s` that passes `p` is kept. */
  lemma FilterComplete<T(!new)>(s: seq<T>, p: T -> bool, x: T)
    requires x in s && p(x)
    ensures x in Filter(s, p)
  {
  }

  /** Filtering distributes over concatenation. */
  lemma {:induction false} FilterAppend<T(!new)>(a: seq<T>, b: seq<T>, p: T -> bool)
    ensures Filter(a + b, p) == Filter(a, p) + Filter(b, p)
  {
    if a == [] {
      assert a + b == b;
    } else {
      var head := if p(a[0]) then [a[0]] else [];
      assert (a + b)[0] == a[0] && (a + b)[1..] == a[1..] + b;
      FilterAppend(a[1..], b, p);
      calc {
        Filter(a + b, p);
        head + Filter(a[1..] + b, p);
        head + (Filter(a[1..], p) + Filter(b, p));
        (head + Filter(a[1..], p)) + Filter(b, p);
      }
    }
  }

  /** Filtering a sequence whose every element passes returns it unchanged. */
  lemma {:induction false} FilterAllPass<T(!new)>(s: seq<T>, p: T -> bool)
    requires forall i :: 0 <= i < |s| ==> p(s[i])
    ensures Filter(s, p) == s
  {
    if s != [] {
      FilterAllPass(s[1..], p);
    }
  }

  /** Filtering a sequence in which nothing passes gives the empty sequence. */
  lemma {:induction false} FilterNonePass<T(!new)>(s: seq<T>, p: T -> bool)
    requires forall i :: 0 <= i < |s| ==> !p(s[i])
    ensures Filter(s, p) == []
  {
    if s != [] {
      FilterNonePass(s[1..], p);
    }
  }

  /** Filtering a non-empty sequence: its front filtered, then its last element if it passes. */
  lemma FilterSnoc<T(!new)>(s: seq<T>, p: T -> bool)
    requires s != []
    ensures Filter(s, p) == Filter(s[..|s| - 1], p) + (if p(s[|s| - 1]) then [s[|s| - 1]] else [])
  {
    var n := |s| - 1;
    assert s == s[..n] + [s[n]];
    FilterAppend(s[..n], [s[n]], p);
    assert Filter([s[n]], p) == (if p(s[n]) then [s[n]] else []) + Filter([], p);
  }

  /** If `rest` filters like the tail of `t` followed by `extra`, then `rest` behind the head
      of `t` filters like `t` followed by `extra`. */
  lemma FilterShift<T(!new)>(t: seq<T>, rest: seq<T>, p: T -> bool, extra: seq<T>)
    requires t != []
    requires Filter(rest, p) == Filter(t[1..], p) + extra
    ensures Filter([t[0]] + rest, p) == Filter(t, p) + extra
  {
    var head := if p(t[0]) then [t[0]] else [];
    var u := [t[0]] + rest;
    assert u[0] == t[0] && u[1..] == rest;
    calc {
      Filter(u, p);
      head + Filter(rest, p);
      head + (Filter(t[1..], p) + extra);
      (head + Filter(t[1..], p)) + extra;
      Filter(t, p) + extra;
    }
  }

  /** Filtering out an element that occurs makes the sequence strictly shorter. */
  lemma {:induction false} FilterDrops<T(!new)>(s: seq<T>, p: T -> bool, x: T)
    requires x in s && !p(x)
    ensures |Filter(s, p)| < |s|
  {
    if s[0] != x {
      FilterDrops(s[1..], p, x);
    }
  }

  /** Filtering never introduces a duplicate. */
  lemma {:induction false} FilterKeepsNoDup<T(!new)>(s: seq<T>, p: T -> bool)
    requires NoDup(s)
    ensures NoDup(Filter(s, p))
  {
    if s != [] {
      assert NoDup(s[1..]) by {
        forall i, j | 0 <= i < j < |s[1..]| ensures s[1..][i] != s[1..][j] {
          assert s[1..][i] == s[i + 1] && s[1..][j] == s[j + 1];
        }
      }
      FilterKeepsNoDup(s[1..], p);
      var rest := Filter(s[1..], p);
      if p(s[0]) {
        assert s[0] !in s[1..] by {
          forall i | 0 <= i < |s[1..]| ensures s[1..][i] != s[0] {
            assert s[1..][i] == s[i + 1];
          }
        }
        assert s[0] !in rest;
        var r := [s[0]] + rest;
        forall i, j | 0 <= i < j < |r| ensures r[i] != r[j] {
          if i == 0 {
            assert r[j] == rest[j - 1];
          } else {
            assert r[i] == rest[i - 1] && r[j] == rest[j - 1];
          }
        }
      }
    }
  }
}

=== FILE: mock_data.dfy ===
/** The customer record store: record shapes, the seed data, and the portfolio totals
    (`getTotalsData`). Energy quantities are whole kilowatt-hours. */
module MockData {
  import opened Common

  /** Account status of a customer. */
  datatype Status = Ativo | Inativo

  /** Operational state of a customer's installation. */
  datatype EquipamentoStatus = EquipamentoAtivo | Offline | Manutencao

  /** The wire spelling of an account status, as compared against the status filter. */
  function StatusName(s: Status): (r: string)
    ensures r == "ativo" <==> s == Ativo
  {
    match s
    case Ativo => "ativo"
    case Inativo => "inativo"
  }

  /** One customer. `deltaPercentual` is stored pre-rounded to one decimal place. */
  datatype Cliente = Cliente(
    id: string,
    nome: string,
    email: string,
    telefone: string,
    endereco: string,
    status: Status,
    equipamentoStatus: EquipamentoStatus,
    consumoTotal: int,
    geracaoTotal: int,
    delta: int,
    deltaPercentual: real,
    ultimaLeitura: string)

  /** The derived-field invariant every record is meant to keep. */
  predicate DeltaConsistent(c: Cliente) {
    c.delta == c.geracaoTotal - c.consumoTotal
  }

  /** One day of the shared baseline curve. */
  datatype DadosGeracao = DadosGeracao(data: string, geracao: int, consumo: int)

  /** Kind of an alert. */
  datatype AlertTipo = AlertOffline | AlertManutencao

  /** An alert; `cliente` refers to a customer by NAME, not by id. */
  datatype Alert = Alert(id: string, cliente: string, tipo: AlertTipo, mensagem: string, timestamp: string)

  const MockClientes: seq<Cliente> := [
    Cliente("1", "João Silva", "joao@email.com", "(11) 99999-9999", "Rua das Flores, 123, São Paulo",
            Ativo, EquipamentoAtivo, 850, 1200, 350, 41.2, "2024-01-09 14:30"),
    Cliente("2", "Maria Santos", "maria@email.com", "(11) 88888-8888", "Av. Central, 456, São Paulo",
            Ativo, Offline, 950, 890, -60, -6.3, "2024-01-08 16:45"),
    Cliente("3", "Pedro Costa", "pedro@email.com", "(11) 77777-7777", "Rua do Sol, 789, São Paulo",
            Ativo, Manutencao, 720, 1150, 430, 59.7, "2024-01-09 12:15"),
    Cliente("4", "Ana Oliveira", "ana@email.com", "(11) 66666-6666", "Rua Verde, 321, São Paulo",
            Inativo, EquipamentoAtivo, 680, 820, 140, 20.6, "2024-01-05 10:20"),
    Cliente("5", "Carlos Mendes", "carlos@email.com", "(11) 55555-5555", "Av. Energia, 654, São Paulo",
            Ativo, EquipamentoAtivo, 1100, 1380, 280, 25.5, "2024-01-09 15:10")
  ]

  const MockGeracaoDiaria: seq<DadosGeracao> := [
    DadosGeracao("2024-01-01", 45, 38),
    DadosGeracao("2024-01-02", 52, 42),
    DadosGeracao("2024-01-03", 48, 35),
    DadosGeracao("2024-01-04", 55, 40),
    DadosGeracao("2024-01-05", 43, 39),
    DadosGeracao("2024-01-06", 38, 45),
    DadosGeracao("2024-01-07", 50, 37),
    DadosGeracao("2024-01-08", 47, 41),
    DadosGeracao("2024-01-09", 53, 36)
  ]

  const MockAlerts: seq<Alert> := [
    Alert("1", "Maria Santos", AlertOffline, "Sistema offline há 2 horas", "2024-01-09 14:30"),
    Alert("2", "Pedro Costa", AlertManutencao, "Manutenção programada iniciada", "2024-01-09 08:00")
  ]

  /** The ids of the store, in store order. */
  function Ids(cs: seq<Cliente>): (r: seq<string>)
    ensures |r| == |cs|
    ensures forall i :: 0 <= i < |cs| ==> r[i] == cs[i].id
  {
    if cs == [] then [] else [cs[0].id] + Ids(cs[1..])
  }

  /** Number of records whose account status is active (`filter(...).length`). */
  function CountAtivos(cs: seq<Cliente>): (n: nat)
    ensures n <= |cs|
  {
    if cs == [] then 0
    else (if cs[0].status == Ativo then 1 else 0) + CountAtivos(cs[1..])
  }

  /** Sum of generation over all records (`reduce` starting at 0). */
  function SumGeracao(cs: seq<Cliente>): int {
    if cs == [] then 0 else cs[0].geracaoTotal + SumGeracao(cs[1..])
  }

  /** Sum of consumption over all records. */
  function SumConsumo(cs: seq<Cliente>): int {
    if cs == [] then 0 else cs[0].consumoTotal + SumConsumo(cs[1..])
  }

  /** Sum of the stored per-record deltas. */
  function SumDelta(cs: seq<Cliente>): int {
    if cs == [] then 0 else cs[0].delta + SumDelta(cs[1..])
  }

  /** Portfolio totals as returned by `getTotalsData`. */
  datatype Totals = Totals(
    totalClientes: nat,
    clientesAtivos: nat,
    geracaoTotal: int,
    consumoTotal: int,
    deltaTotal: int,
    deltaPercentual: Option<real>)

  /** `deltaTotal / consumoTotal * 100`, absent when there is no consumption to divide by. */
  function Percent(num: int, den: int): (r: Option<real>)
    ensures r.None? <==> den == 0
    ensures r.Some? ==> r.value * (den as real) == (num as real) * 100.0
    ensures r.Some? && den > 0 ==> (r.value > 0.0 <==> num > 0)
  {
    if den == 0 then None else Some((num as real) / (den as real) * 100.0)
  }

  /** The aggregate computed over a record sequence. */
  function GetTotalsData(cs: seq<Cliente>): (t: Totals)
    ensures t.totalClientes == |cs|
    ensures t.clientesAtivos == CountAtivos(cs) && t.clientesAtivos <= t.totalClientes
    ensures t.geracaoTotal == SumGeracao(cs) && t.consumoTotal == SumConsumo(cs)
    ensures t.deltaTotal == t.geracaoTotal - t.consumoTotal
    ensures t.deltaPercentual.None? <==> t.consumoTotal == 0
    ensures t.deltaPercentual.Some? ==>
              t.deltaPercentual.value * (t.consumoTotal as real) == (t.deltaTotal as real) * 100.0
  {
    var geracao := SumGeracao(cs);
    var consumo := SumConsumo(cs);
    Totals(|cs|, CountAtivos(cs), geracao, consumo, geracao - consumo, Percent(geracao - consumo, consumo))
  }

  /** Reference definition of the active count: the number of positions holding an active record. */
  ghost function AtivoPositions(cs: seq<Cliente>): set<int> {
    set i | 0 <= i < |cs| && cs[i].status == Ativo
  }

  /** The active count is the number of positions holding an active record. */
  lemma {:induction false} CountAtivosIsPositionCount(cs: seq<Cliente>)
    ensures CountAtivos(cs) == |AtivoPositions(cs)|
  {
    if cs != [] {
      var n := |cs| - 1;
      var init := cs[..n];
      CountAtivosIsPositionCount(init);
      assert cs == init + [cs[n]];
      SumsAppend(init, [cs[n]]);
      assert n !in AtivoPositions(init);
      if cs[n].status == Ativo {
        assert AtivoPositions(cs) == AtivoPositions(init) + {n};
      } else {
        assert AtivoPositions(cs) == AtivoPositions(init);
      }
    }
  }

  /** Every sum distributes over concatenation of record sequences. */
  lemma {:induction false} SumsAppend(a: seq<Cliente>, b: seq<Cliente>)
    ensures SumGeracao(a + b) == SumGeracao(a) + SumGeracao(b)
    ensures SumConsumo(a + b) == SumConsumo(a) + SumConsumo(b)
    ensures SumDelta(a + b) == SumDelta(a) + SumDelta(b)
    ensures CountAtivos(a + b) == CountAtivos(a) + CountAtivos(b)
  {
    if a != [] {
      assert (a + b)[1..] == a[1..] + b;
      SumsAppend(a[1..], b);
    } else {
      assert a + b == b;
    }
  }

  /** With non-negative readings, the generation sum is non-negative and no single record's
      generation exceeds it. */
  lemma {:induction false} SumGeracaoBounds(cs: seq<Cliente>)
    requires forall i :: 0 <= i < |cs| ==> cs[i].geracaoTotal >= 0
    ensures SumGeracao(cs) >= 0
    ensures forall i :: 0 <= i < |cs| ==> cs[i].geracaoTotal <= SumGeracao(cs)
  {
    if cs != [] {
      SumGeracaoBounds(cs[1..]);
      assert forall i :: 1 <= i < |cs| ==> cs[i] == cs[1..][i - 1];
    }
  }

  /** The same bounds for the consumption sum. */
  lemma {:induction false} SumConsumoBounds(cs: seq<Cliente>)
    requires forall i :: 0 <= i < |cs| ==> cs[i].consumoTotal >= 0
    ensures SumConsumo(cs) >= 0
    ensures forall i :: 0 <= i < |cs| ==> cs[i].consumoTotal <= SumConsumo(cs)
  {
    if cs != [] {
      SumConsumoBounds(cs[1..]);
      assert forall i :: 1 <= i < |cs| ==> cs[i] == cs[1..][i - 1];
    }
  }

  /** When every record keeps its derived-field invariant, the portfolio delta equals the sum
      of the stored per-record deltas. */
  lemma {:induction false} DeltaTotalIsSumOfDeltas(cs: seq<Cliente>)
    requires forall i :: 0 <= i < |cs| ==> DeltaConsistent(cs[i])
    ensures GetTotalsData(cs).deltaTotal == SumDelta(cs)
  {
    if cs != [] {
      DeltaTotalIsSumOfDeltas(cs[1..]);
    }
  }

  /** The totals count every record regardless of status: changing one record's account
      status moves only the active count. */
  lemma {:induction false} TotalsIgnoreStatus(cs: seq<Cliente>, k: int, s: Status)
    requires 0 <= k < |cs|
    ensures var t := GetTotalsData(cs);
            var t' := GetTotalsData(cs[k := cs[k].(status := s)]);
            t'.totalClientes == t.totalClientes
            && t'.geracaoTotal == t.geracaoTotal
            && t'.consumoTotal == t.consumoTotal
            && t'.deltaTotal == t.deltaTotal
            && t'.deltaPercentual == t.deltaPercentual
  {
    var cs' := cs[k := cs[k].(status := s)];
    assert cs == cs[..k] + [cs[k]] + cs[k + 1..];
    assert cs' == cs[..k] + [cs'[k]] + cs[k + 1..];
    SumsAppend(cs[..k] + [cs[k]], cs[k + 1..]);
    SumsAppend(cs[..k], [cs[k]]);
    SumsAppend(cs[..k] + [cs'[k]], cs[k + 1..]);
    SumsAppend(cs[..k], [cs'[k]]);
  }

  /** Every seed record keeps `delta == geracaoTotal - consumoTotal`, and seed ids are distinct. */
  lemma SeedWellFormed()
    ensures forall i :: 0 <= i < |MockClientes| ==> DeltaConsistent(MockClientes[i])
    ensures NoDup(Ids(MockClientes))
  {
  }

  /** The dashboard totals over the seed data. */
  lemma SeedTotals()
    ensures var t := GetTotalsData(MockClientes);
            t.totalClientes == 5 && t.clientesAtivos == 4
            && t.geracaoTotal == 5440 && t.consumoTotal == 4300 && t.deltaTotal == 1140
            && t.deltaPercentual.Some?
  {
  }

  /** Every seed alert names an existing seed customer (the join is by name). */
  lemma SeedAlertsReferToCustomers()
    ensures forall a :: a in MockAlerts ==> exists c :: c in MockClientes && c.nome == a.cliente
  {
    assert MockClientes[1].nome == MockAlerts[0].cliente;
    assert MockClientes[2].nome == MockAlerts[1].cliente;
  }
}

=== FILE: novo_cliente.dfy ===
/** The new-customer form: its initial state, the required-field check on submit, and reset.
    Submitting does not add to the store; it only raises a toast and navigates. */
module NovoCliente {
  import opened MockData

  /** The form's fields. */
  datatype FormData = FormData(
    nome: string,
    email: string,
    telefone: string,
    endereco: string,
    status: Status,
    observacoes: string)

  /** The state the form starts in. */
  const InitialForm: FormData := FormData("", "", "", "", Ativo, "")

  /** The four fields that must be filled in. */
  predicate RequiredFilled(f: FormData) {
    f.nome != "" && f.email != "" && f.telefone != "" && f.endereco != ""
  }

  /** What a submit does: reject with a validation toast, or confirm and navigate to the list. */
  datatype SubmitOutcome =
    | Rejected(title: string, description: string)
    | Saved(title: string, description: string, navigateTo: string)

  /** `handleSubmit`. */
  function Submit(f: FormData): (o: SubmitOutcome)
    ensures o.Rejected? <==> f.nome == "" || f.email == "" || f.telefone == "" || f.endereco == ""
    ensures o.Saved? ==> o.navigateTo == "/clientes"
    ensures o.Saved? ==> o.description == f.nome + " foi adicionado ao sistema."
  {
    if !RequiredFilled(f) then
      Rejected("Erro de validação", "Por favor, preencha todos os campos obrigatórios.")
    else
      Saved("Cliente cadastrado com sucesso!", f.nome + " foi adicionado ao sistema.", "/clientes")
  }

  /** Neither the notes nor the status can make a submit fail or succeed. */
  lemma SubmitIgnoresOptionalFields(f: FormData, obs: string, s: Status)
    ensures Submit(f.(observacoes := obs, status := s)) == Submit(f)
  {
  }

  /** A form fresh from its initial state is always rejected. */
  lemma InitialFormRejected()
    ensures Submit(InitialForm).Rejected?
  {
  }

  /** `handleReset`: every text field emptied, status back to active. */
  function Reset(f: FormData): (r: FormData)
    ensures r.nome == "" && r.email == "" && r.telefone == "" && r.endereco == "" && r.observacoes == ""
    ensures r.status == Ativo
    ensures r == InitialForm
  {
    FormData("", "", "", "", Ativo, "")
  }

  /** Resetting twice is resetting once. */
  lemma ResetIdempotent(f: FormData)
    ensures Reset(Reset(f)) == Reset(f)
  {
  }
}

=== FILE: relatorios.dfy ===
/** The reports page: the customer selection list with its toggle and select-all handlers,
    the export guard shared by PDF and Excel, and the preview labels. */
module Relatorios {
  import opened Common
  import opened MockData

  // ---------------------------------------------------------------------------
  // Selection
  // ---------------------------------------------------------------------------

  /** "Is not `id`" as a value (the callback of `prev.filter`). */
  function OtherThan(id: string): string -> bool {
    x => x != id
  }

  /** `handleClienteToggle`: a selected id is removed (every occurrence), an unselected one
      is appended at the end. */
  function Toggle(sel: seq<string>, id: string): (r: seq<string>)
    ensures id in r <==> id !in sel
    ensures forall o :: o != id ==> (o in r <==> o in sel)
    ensures id !in sel ==> r == sel + [id]
    ensures id in sel ==> r == Filter(sel, OtherThan(id)) && |r| < |sel|
  {
    if id in sel then
      var r := Filter(sel, OtherThan(id));
      forall o | o != id && o in sel ensures o in r {
        FilterComplete(sel, OtherThan(id), o);
      }
      FilterDrops(sel, OtherThan(id), id);
      r
    else
      sel + [id]
  }

  /** A duplicate-free selection stays duplicate-free after a toggle. */
  lemma ToggleKeepsNoDup(sel: seq<string>, id: string)
    requires NoDup(sel)
    ensures NoDup(Toggle(sel, id))
  {
    if id in sel {
      FilterKeepsNoDup(sel, OtherThan(id));
    }
  }

  /** Toggling the same id twice restores the set of selected ids. */
  lemma ToggleTwiceSameSet(sel: seq<string>, id: string)
    ensures Elems(Toggle(Toggle(sel, id), id)) == Elems(sel)
  {
  }

  /** Toggling an unselected id twice restores the selection exactly. */
  lemma ToggleTwiceRestores(sel: seq<string>, id: string)
    requires id !in sel
    ensures Toggle(Toggle(sel, id), id) == sel
  {
    var once := sel + [id];
    FilterAllPass(sel, OtherThan(id));
    FilterAppend(sel, [id], OtherThan(id));
    assert Filter([id], OtherThan(id)) == [] + Filter([], OtherThan(id));
  }

  /** `handleSelectAllClientes`: clears the selection when its length equals the store's size,
      otherwise selects every store id in store order. */
  function SelectAll(sel: seq<string>, store: seq<Cliente>): (r: seq<string>)
    ensures |sel| == |store| ==> r == []
    ensures |sel| != |store| ==> |r| == |store| && forall i :: 0 <= i < |store| ==> r[i] == store[i].id
  {
    if |sel| == |store| then [] else Ids(store)
  }

  /** The selections the page can reach: duplicate-free and drawn from the store's ids. */
  ghost predicate ValidSelection(sel: seq<string>, store: seq<Cliente>) {
    NoDup(sel) && forall x :: x in sel ==> x in Ids(store)
  }

  /** A valid selection is never longer than the store ("n de N clientes selecionados"). */
  lemma SelectionBounded(sel: seq<string>, store: seq<Cliente>)
    requires ValidSelection(sel, store)
    ensures |sel| <= |store|
  {
    ElemsCard(sel);
    ElemsCard(Ids(store));
    SubsetCard(Elems(sel), Elems(Ids(store)));
  }

  /** With distinct store ids, the length test of select-all is the same as "every store id is
      selected" on every valid selection. */
  lemma SelectAllLengthTestSound(sel: seq<string>, store: seq<Cliente>)
    requires ValidSelection(sel, store)
    requires NoDup(Ids(store))
    ensures |sel| == |store| <==> Elems(sel) == Elems(Ids(store))
  {
    ElemsCard(sel);
    ElemsCard(Ids(store));
    assert Elems(sel) <= Elems(Ids(store));
    if |sel| == |store| {
      SubsetSameCard(Elems(sel), Elems(Ids(store)));
    }
  }

  // ---------------------------------------------------------------------------
  // Page state
  // ---------------------------------------------------------------------------

  /** The page's state variables. */
  datatype ReportState = ReportState(
    selected: seq<string>,
    tipoRelatorio: string,
    periodo: string,
    dataInicio: string,
    dataFim: string)

  /** The state on first render. */
  const InitialState: ReportState := ReportState([], "", "", "", "")

  /** What the user can do on the page. Checkboxes exist only for store ids. */
  datatype Event =
    | ToggleCliente(id: string)
    | SelectAllClientes
    | SetTipo(tipo: string)
    | SetPeriodo(periodo: string)
    | SetDataInicio(d: string)
    | SetDataFim(d: string)

  /** One event's effect on the state. */
  function Step(s: ReportState, e: Event, store: seq<Cliente>): (r: ReportState)
    ensures !e.ToggleCliente? && !e.SelectAllClientes? ==> r.selected == s.selected
    ensures e.ToggleCliente? ==> (e.id in r.selected <==> e.id !in s.selected)
    ensures e.ToggleCliente? ==> r == s.(selected := Toggle(s.selected, e.id))
    ensures e.SelectAllClientes? ==> r == s.(selected := SelectAll(s.selected, store))
    ensures e.SetTipo? ==> r == s.(tipoRelatorio := e.tipo)
    ensures e.SetPeriodo? ==> r == s.(periodo := e.periodo)
    ensures e.SetDataInicio? ==> r == s.(dataInicio := e.d)
    ensures e.SetDataFim? ==> r == s.(dataFim := e.d)
  {
    match e
    case ToggleCliente(id) => s.(selected := Toggle(s.selected, id))
    case SelectAllClientes => s.(selected := SelectAll(s.selected, store))
    case SetTipo(t) => s.(tipoRelatorio := t)
    case SetPeriodo(p) => s.(periodo := p)
    case SetDataInicio(d) => s.(dataInicio := d)
    case SetDataFim(d) => s.(dataFim := d)
  }

  /** Events that the rendered page can raise: toggles name ids the store lists. */
  predicate Offered(e: Event, store: seq<Cliente>) {
    e.ToggleCliente? ==> e.id in Ids(store)
  }

  /** The selection stays valid across every offered event when store ids are distinct. */
  lemma StepKeepsValidSelection(s: ReportState, e: Event, store: seq<Cliente>)
    requires NoDup(Ids(store))
    requires ValidSelection(s.selected, store)
    requires Offered(e, store)
    ensures ValidSelection(Step(s, e, store).selected, store)
  {
    match e
    case ToggleCliente(id) =>
      ToggleKeepsNoDup(s.selected, id);
    case SelectAllClientes =>
    case _ =>
  }

  /** Applies a sequence of events from the initial state. */
  function Run(events: seq<Event>, store: seq<Cliente>): ReportState {
    if events == [] then InitialState
    else Step(Run(events[..|events| - 1], store), events[|events| - 1], store)
  }

  /** Every reachable selection is valid, hence no longer than the store. */
  lemma {:induction false} RunKeepsValidSelection(events: seq<Event>, store: seq<Cliente>)
    requires NoDup(Ids(store))
    requires forall i :: 0 <= i < |events| ==> Offered(events[i], store)
    ensures ValidSelection(Run(events, store).selected, store)
    ensures |Run(events, store).selected| <= |store|
  {
    if events != [] {
      var n := |events| - 1;
      RunKeepsValidSelection(events[..n], store);
      StepKeepsValidSelection(Run(events[..n], store), events[n], store);
    }
    SelectionBounded(Run(events, store).selected, store);
  }

  // ---------------------------------------------------------------------------
  // Export
  // ---------------------------------------------------------------------------

  /** The two export buttons. */
  datatype ExportFormat = Pdf | Excel

  /** A toast notification; `destructive` marks the validation error. */
  datatype Toast = Toast(title: string, description: string, destructive: bool)

  /** The condition that disables both buttons and makes both handlers reject. */
  function ExportBlocked(tipoRelatorio: string, selected: seq<string>): (b: bool)
    ensures b <==> tipoRelatorio == [] || selected == []
    ensures !b ==> |tipoRelatorio| > 0 && |selected| > 0
  {
    tipoRelatorio == "" || |selected| == 0
  }

  /** `handleExportPDF` / `handleExportExcel`: the toast each one raises. */
  function Export(fmt: ExportFormat, tipoRelatorio: string, selected: seq<string>): (t: Toast)
    ensures t.destructive <==> tipoRelatorio == "" || selected == []
    ensures t.destructive ==> t.title == "Erro de validação"
    ensures !t.destructive ==> t.title != "Erro de validação"
    ensures !t.destructive ==> t.title == (if fmt == Pdf then "Relatório PDF gerado!" else "Relatório Excel gerado!")
  {
    if ExportBlocked(tipoRelatorio, selected) then
      Toast("Erro de validação", "Selecione pelo menos um cliente e o tipo de relatório.", true)
    else
      match fmt
      case Pdf => Toast("Relatório PDF gerado!", "Relatório de " + tipoRelatorio + " exportado com sucesso.", false)
      case Excel => Toast("Relatório Excel gerado!", "Planilha de " + tipoRelatorio + " exportada com sucesso.", false)
  }

  /** Both formats accept and reject on exactly the same inputs. */
  lemma ExportSameGuard(tipoRelatorio: string, selected: seq<string>)
    ensures Export(Pdf, tipoRelatorio, selected).destructive == Export(Excel, tipoRelatorio, selected).destructive
    ensures Export(Pdf, tipoRelatorio, selected).destructive == ExportBlocked(tipoRelatorio, selected)
  {
  }

  // ---------------------------------------------------------------------------
  // Preview labels
  // ---------------------------------------------------------------------------

  /** The preview's "Período" line. */
  function PeriodLabel(periodo: string, dataInicio: string, dataFim: string): (r: string)
    ensures periodo == "" ==> r == "Não selecionado"
    ensures periodo == "personalizado" ==> r == dataInicio + " até " + dataFim
    ensures periodo == "7" ==> r == "Últimos 7 dias"
    ensures periodo == "30" ==> r == "Últimos 30 dias"
    ensures periodo == "90" ==> r == "Últimos 90 dias"
    ensures periodo == "mes" ==> r == "Mês atual"
    ensures periodo !in {"", "personalizado", "7", "30", "90", "mes"} ==> r == "Ano atual"
    ensures r != ""
    ensures periodo != "personalizado" ==> (r == "Não selecionado" <==> periodo == "")
  {
    if periodo == "" then "Não selecionado"
    else if periodo == "personalizado" then dataInicio + " até " + dataFim
    else if periodo == "7" then "Últimos 7 dias"
    else if periodo == "30" then "Últimos 30 dias"
    else if periodo == "90" then "Últimos 90 dias"
    else if periodo == "mes" then "Mês atual"
    else "Ano atual"
  }

  /** The preview's "Tipo" line. */
  function TipoLabel(tipoRelatorio: string): (r: string)
    ensures tipoRelatorio == "" ==> r == "Não selecionado"
    ensures tipoRelatorio != "" ==> r == tipoRelatorio
    ensures r != ""
  {
    if tipoRelatorio == "" then "Não selecionado" else tipoRelatorio
  }

  /** The select-all button's caption, which announces what the next click does. */
  function SelectAllCaption(sel: seq<string>, store: seq<Cliente>): (r: string)
    ensures r == "Desmarcar Todos" <==> |sel| == |store|
    ensures r == "Desmarcar Todos" ==> SelectAll(sel, store) == []
    ensures r != "Desmarcar Todos" ==> r == "Selecionar Todos" && |SelectAll(sel, store)| == |store|
  {
    if |sel| == |store| then "Desmarcar Todos" else "Selecionar Todos"
  }
}
